=== FILE: README.md ===
# Credential forms: validation and form state

This project models the local logic of the three credential forms of a
React web application: the login form, the login page that hosts the same
form plus a Google sign-in button, and the registration form. Each form
keeps field values, one inline error per field, a form-level error, a
notification line, a loading flag and show-password toggles. It validates
fields when the user leaves them and again, in a fixed order, on submit.
A password sign-in or account creation calls the identity vendor only when
every submit check passes. A reset request needs only the two email checks,
and the Google popup runs no check at all.

The model is functional. Each form's state is an immutable datatype, and
each handler is a pure function from state to state. A vendor call is a
parameter describing how the call ended: a document, no document, or a
thrown message. The modules are:

- `Common`: `Option` and the per-user account document.
- `Validation`: the email pattern `^\S+@\S+\.\S+$`, the eight-character
  password rule and the "no digit" name rule. The email check is a
  seven-state left-to-right scan. It is proved equal to the plain statement
  of what the pattern accepts.
- `Gate`: a submit chain read as an ordered list of checks, where the first
  failing check decides the reported field.
- `LoginForm`: the login form's state, typing, blur, submit, forgot-password
  and toggle handlers.
- `Login`: the login page. Its handlers are the `LoginForm` functions,
  because, apart from the focus helpers, `src/pages/Login/Login.js` lines
  39-151 repeat `src/pages/Login/LoginForm/LoginForm.js` lines 34-152
  statement for statement. The page adds sign-in through the Google popup.
  It is modelled as a machine over user events, with lemmas about whole
  event sequences.
- `RegisterForm`: the registration form. It has two event machines: one
  with the image handlers as written, and one with the corrected image
  picker described under "## Findings".

The registration submit handler only requires the name to be non-empty
(`RegisterForm.js` lines 239-244); only the blur handler rejects a name
containing digits (lines 96-101). The model follows the code and makes the
difference explicit (`RegisterForm.SubmitIgnoresNameDigits`,
`RegisterForm.BlurAndSubmitDisagreeOnName`). The registration submit
handler's invalid-email message lacks the final period of the blur message.
The model keeps both strings as written.

## Model

| member | source | states |
|---|---|---|
| `Validation.IsValidEmail` | src/pages/Register/RegisterForm/RegisterForm.js:74-76 | accepts a string exactly when it has no whitespace and has an '@' at some i ≥ 1 and a '.' at some j with i+2 ≤ j ≤ length−2; never accepts the empty string |
| `Validation.ScanAgreesWithShape` | src/pages/Register/RegisterForm/RegisterForm.js:74-76 | the left-to-right scan ends in its accepting state exactly on the strings of that shape, in both directions |
| `Validation.ScanHolds` | src/pages/Register/RegisterForm/RegisterForm.js:74-76 | after any prefix, the facts recorded by the scan state reached hold of that prefix (induction over the input) |
| `Validation.StepHolds` | src/pages/Login/Login.js:44-46 | one more character keeps the scan's state facts true |
| `Validation.Utf16Length` | src/pages/Register/RegisterForm/RegisterForm.js:77-79 | JavaScript `length` is the character count plus the number of characters outside the Basic Multilingual Plane, so it lies between the character count and twice it and equals the character count for text inside that plane |
| `Validation.PasswordRule` | src/pages/Login/LoginForm/LoginForm.js:42-44 | every password of 8+ characters is accepted, none under 4 and never the empty one; for BMP text it accepts exactly the strings of length ≥ 8 |
| `Validation.ContainsDigit` | src/pages/Register/RegisterForm/RegisterForm.js:71-72 | the digit search finds something exactly when some character is '0'–'9' |
| `Validation.IsValidUsername` | src/pages/Register/RegisterForm/RegisterForm.js:70-73 | accepts a name exactly when no character is '0'–'9' |
| `Gate.FirstFailing` | src/pages/Login/Login.js:111-124 | returns the position of the first failing check: all earlier checks pass, the one at the position fails, or all pass |
| `Gate.Evaluate` | src/pages/Register/RegisterForm/RegisterForm.js:233-281 | no rejection exactly when all checks pass; otherwise the field and message of the earliest failing check |
| `LoginForm.ToggleShowPassword` | src/pages/Login/LoginForm/LoginForm.js:34-36 | flips the show-password flag and changes nothing else |
| `LoginForm.ToggleShowPasswordInvolution` | src/pages/Login/Login.js:39-41 | toggling twice restores the state; toggling once always changes it |
| `LoginForm.Input` | src/pages/Login/LoginForm/LoginForm.js:65-78 | typing sets that value, clears that field's error, the form error and the notification; the other value and error and all flags are kept |
| `LoginForm.Blur` | src/pages/Login/LoginForm/LoginForm.js:47-62 | a valid field leaves the state unchanged; an empty one gets the "please enter" message and an invalid one the rule's message; only that field's error changes and no error is ever cleared |
| `LoginForm.Verdict` | src/pages/Login/LoginForm/LoginForm.js:112-126 | sign-in is attempted exactly when the email is well formed and the password long enough; a rejected field really fails its rule, and a password is reported only once the email is fine |
| `LoginForm.VerdictFollowsPriority` | src/pages/Login/LoginForm/LoginForm.js:112-125 | the handler's chain reports exactly the first failing check of email empty, email format, password empty, password length |
| `LoginForm.Resolve` | src/pages/Login/LoginForm/LoginForm.js:127-151 | the call is entered with loading on and, through the `finally`, ends with loading false; values and inline errors are kept; the call's single effect is one of: account stored, the "no account" error, or the thrown message as form error; a form error shown before the call is kept on success |
| `LoginForm.Submit` | src/pages/Login/LoginForm/LoginForm.js:110-152 | a rejected submit sets only the reported field's error; an accepted one settles as above |
| `LoginForm.EmptySubmitAsksForEmail` | src/pages/Login/LoginForm/LoginForm.js:17-31 | submitting the form in its initial state sets only the email-required error |
| `LoginForm.SubmitReachesSignInIff` | src/pages/Login/Login.js:125-133 | the sign-in outcome can affect the state exactly when the checks pass, so a rejected submit never reaches the call |
| `LoginForm.ForgotPassword` | src/pages/Login/LoginForm/LoginForm.js:90-107 | an empty or malformed email sets only the email error; otherwise a sent reset shows the fixed notice and a failure shows its message as form error |
| `LoginForm.ForgotPasswordIgnoresPassword` | src/pages/Login/Login.js:91-106 | the password never affects the reset, and the vendor outcome matters exactly when the email is well formed |
| `Login.LoginWithGoogle` | src/pages/Login/Login.js:154-174 | the popup call is entered with loading on and settles the page like a password sign-in: loading false and the call's single effect, with a form error shown before the call kept on success |
| `Login.GoogleSkipsValidation` | src/pages/Login/Login.js:154-158 | the popup outcome always reaches the page, whatever the fields hold |
| `Login.Handle` | src/pages/Login/Login.js:39-174 | no event turns loading on; a made call ends with loading off; only typing into a field can clear its error; only typing changes values |
| `Login.StaleErrorBesideAccount` | src/pages/Login/Login.js:126-149 | a failed sign-in followed by a successful one leaves the stored account and the old error message shown together, with loading off |
| `Login.ErrorPersistsUntilEdited` | src/pages/Login/Login.js:70-83 | over any event sequence without typing into a field, that field's shown error stays shown |
| `Login.NeverLeftLoading` | src/pages/Login/Login.js:126-174 | from a page that is not loading, no event sequence leaves it loading, although each sign-in call turns loading on: the `finally` always clears it |
| `RegisterForm.ToggleShowPassword` | src/pages/Register/RegisterForm/RegisterForm.js:62-64 | flips the show-password flag and nothing else |
| `RegisterForm.ToggleShowConfirmPassword` | src/pages/Register/RegisterForm/RegisterForm.js:65-67 | flips the show-confirmation flag and nothing else |
| `RegisterForm.TogglesAreInvolutions` | src/pages/Register/RegisterForm/RegisterForm.js:62-67 | each toggle undone by itself, and the two toggles commute |
| `RegisterForm.Edit` | src/pages/Register/RegisterForm/RegisterForm.js:180-207 | typing sets that value, clears that field's error, the form error and the notification, and keeps every other value, error and flag |
| `RegisterForm.SelectImageAsWritten` | src/pages/Register/RegisterForm/RegisterForm.js:145-154 | the reader's result replaces the image: a loaded file fills the slot, a failed or aborted read empties it, no file changes nothing; no error or notification is touched |
| `RegisterForm.FailedReadRejectsSubmit` | src/pages/Register/RegisterForm/RegisterForm.js:145-154 | as written, a failed read after a loaded image empties the slot, so the next submit asks for an image |
| `RegisterForm.ImageErrorOutlivesImage` | src/pages/Register/RegisterForm/RegisterForm.js:82-89 | leaving the empty image slot and then choosing an image leaves "Please select an image." next to the chosen image |
| `RegisterForm.SelectImage` | src/pages/Register/RegisterForm/RegisterForm.js:165-178 | (corrected) a loaded file fills the slot and clears the image error, form error and notification; a failed read or no file acts as written; other errors and values, both toggles, loading and the account are kept; the image error stays honest |
| `RegisterForm.Blur` | src/pages/Register/RegisterForm/RegisterForm.js:82-142 | a valid field is left unchanged; a blank one gets its required message; a non-empty invalid one (digits in the name, malformed email, short password, mismatched confirmation) gets the rule's message; only that error changes, none is cleared |
| `RegisterForm.Verdict` | src/pages/Register/RegisterForm/RegisterForm.js:233-282 | creation is attempted exactly when an image is chosen, the name is non-empty, the email well formed, the password long enough and the confirmation equal; every rejected field but the name fails its blur rule |
| `RegisterForm.VerdictFollowsPriority` | src/pages/Register/RegisterForm/RegisterForm.js:233-281 | the handler's chain reports exactly the first failing check of image, name, email empty, email format, password empty, password length, confirmation empty, mismatch |
| `RegisterForm.SubmitIgnoresNameDigits` | src/pages/Register/RegisterForm/RegisterForm.js:239-244 | an accepted submit stays accepted when the name becomes any non-empty name, digits included |
| `RegisterForm.BlurAndSubmitDisagreeOnName` | src/pages/Register/RegisterForm/RegisterForm.js:96-101 | a form whose name "R2D2" the blur rule rejects passes the submit checks |
| `RegisterForm.Resolve` | src/pages/Register/RegisterForm/RegisterForm.js:283-316 | the call is entered with loading on and, through the `finally`, ends with loading false; values and inline errors are kept; the call's single effect is one of: the existing document, a new document from the form's name and email with role "user" (stored under the key `type`) and the uploaded image's URL, or the thrown message as form error; a form error shown before the call is kept on success |
| `RegisterForm.Submit` | src/pages/Register/RegisterForm/RegisterForm.js:231-317 | a rejected submit sets only the reported field's error; an accepted one settles as above |
| `RegisterForm.SubmitReachesCreateIff` | src/pages/Register/RegisterForm/RegisterForm.js:282-289 | the creation outcome can affect the state exactly when the checks pass |
| `RegisterForm.Handle` | src/pages/Register/RegisterForm/RegisterForm.js:82-207 | (corrected) with the corrected picker, no event turns loading on; only changing a field clears its error; the image error is shown only while no image is chosen, if that held before |
| `RegisterForm.ErrorPersistsUntilEdited` | src/pages/Register/RegisterForm/RegisterForm.js:180-207 | (corrected) on the machine with the corrected picker, over any event sequence that does not change a field, that field's shown error stays shown |
| `RegisterForm.ReachableStatesAreSound` | src/pages/Register/RegisterForm/RegisterForm.js:231-317 | (corrected) with the corrected picker, from a sound, non-loading form, every event sequence keeps the image error honest and the form not loading, although a submit turns loading on for the call |
| `RegisterForm.HandleAsWritten` | src/pages/Register/RegisterForm/RegisterForm.js:82-207 | with the image handlers as written, no event turns loading on, only typing into a field clears its error, and a shown image error is never cleared |
| `RegisterForm.ErrorPersistsAsWritten` | src/pages/Register/RegisterForm/RegisterForm.js:180-207 | as written, over any event sequence that does not type into a field, that field's shown error stays shown |
| `RegisterForm.ImageErrorNeverClearedAsWritten` | src/pages/Register/RegisterForm/RegisterForm.js:145-178 | as written, once the image error is shown, no event sequence clears it, choosing an image included |
| `RegisterForm.NeverLeftLoadingAsWritten` | src/pages/Register/RegisterForm/RegisterForm.js:282-317 | as written, from a form that is not loading, no event sequence leaves it loading |

## Left out

- `src/pages/Register/Register.js` is not part of this model. It only opens an OAuth popup and then gets or sets one vendor document.
- The vendor's calls are not modelled: sign-in, account creation, reset dispatch, document get/set, upload and download URL. Each handler that makes them takes the outcome as a parameter (`SignInOutcome`, `ResetOutcome`, `CreateOutcome`).
- Rendering, border colours, refs and the focus/click helpers are not modelled. The drag-over highlight (`handleDragOver`, `handleDragLeave`, `isDragOver`) is left out too.
- The FileReader conversion to a data URL is not modelled. `image` records only whether the slot holds a data URL, and both the picker and a drop are the `PickImage` event. That event stands for the moment `onloadend` fires: choosing the file changes no state before then, so a submit made while the read is still running is a `SubmitForm` event before the `PickImage` event.
- React's batching of state updates is not modelled. Each functional updater is applied in sequence, which gives the same record.
- `console.error` logging is left out.
- The phone slot has a value and an error but no handler, so neither ever changes.
- RegisterForm.ErrorPersistsUntilEdited: holds for the corrected machine; `RegisterForm.ErrorPersistsAsWritten` is the same fact for the machine as written.
- RegisterForm.Handle: uses the corrected image picker `SelectImage`, not the source's handlers; `RegisterForm.HandleAsWritten` is the machine as written.
- RegisterForm.ReachableStatesAreSound: holds for the corrected machine only; as written the image error can outlive the image (`RegisterForm.ImageErrorNeverClearedAsWritten`).
- LoginForm.Resolve: the intermediate `loading = true` while the call is outstanding is not a separate state: the flag is set on entry to the call and cleared within the same step. A submit is one step from before the call to after it. So the event machines do not model a second event arriving while a sign-in or account-creation call is pending, which the loading overlay prevents.
- LoginForm.Resolve: a successful call does not clear a form error shown before it. The source does not clear it either (`Login.StaleErrorBesideAccount`). The model does not propose a correction, because nothing in the source says which behaviour is intended.
- LoginForm.ForgotPassword: the reset request is one step, although the source sets no loading flag while it is pending, so nothing blocks other events. Typing into the email field while the request is out, for example, ends in the source with the new email and the reset notice together. No ordering of the model's atomic events reaches that state.
- Validation.IsValidEmail: strings are sequences of Unicode scalar values, while JavaScript tests UTF-16 code units. For this pattern both give the same verdict, since '@', '.' and every whitespace character are single units and the halves of a surrogate pair are both `\S`. `\s` is written out as the ECMAScript WhiteSpace and LineTerminator code points.
- Validation.IsValidPassword counts UTF-16 code units (`Utf16Length`) exactly as `length` does. There is no lemma about strings containing unpaired surrogates, which Dafny's `char` cannot hold.

## Findings

| source | as written | input that shows it | evidently intended | confidence | as-written member | corrected member |
|---|---|---|---|---|---|---|
| src/pages/Register/RegisterForm/RegisterForm.js:145-178 | `imageUploadHandler` and `handleDrop` store the image but never clear `imageError`, and no other handler does either | leave the empty image slot (blur shows "Please select an image."), then choose an image: the message stays under the chosen image, also after a later successful submit | choosing an image clears its error, as typing clears a text field's error | medium; not executed | `RegisterForm.SelectImageAsWritten`, shown by `RegisterForm.ImageErrorOutlivesImage`; `RegisterForm.HandleAsWritten`, shown by `RegisterForm.ImageErrorNeverClearedAsWritten` | `RegisterForm.SelectImage`, used by `RegisterForm.Handle`; `RegisterForm.ReachableStatesAreSound` proves the image error is shown only while no image is chosen |

=== FILE: common.dfy ===
/** Types shared by the login and registration forms. */
module Common {

  /** A value that may be absent; `None` stands for the empty object `{}`
      a form holds before any account document has been read. */
  datatype Option<+T> = None | Some(value: T)

  /** The account document kept per user id in the "userList" collection:
      id, display name, email address, role tag and profile-image location.
      The document stores the role tag under the key `type`, a reserved
      word here, so the field is called `role`. */
  datatype Account = Account(userId: string, userName: string, email: string, role: string, image: string)
}

=== FILE: gate.dfy ===
/** A submit handler's validation chain, read as an ordered list of checks:
    the first check that fails decides which field's error is shown, and
    nothing after it is looked at. */
module Gate {
  import opened Common

  /** One link of the chain: whether it passes, and the field and message
      it reports when it does not. */
  datatype Check<F> = Check(passes: bool, field: F, message: string)

  /** What a failed chain reports. */
  datatype Rejection<F> = Rejection(field: F, message: string)

  /** The position of the first failing check, or `|checks|` when all pass. */
  function FirstFailing<F>(checks: seq<Check<F>>): (k: nat)
    ensures k <= |checks|
    ensures forall m :: 0 <= m < k ==> checks[m].passes
    ensures k < |checks| ==> !checks[k].passes
  {
    if |checks| == 0 then 0
    else if !checks[0].passes then 0
    else 1 + FirstFailing(checks[1..])
  }

  /** The verdict of a chain: no rejection exactly when every check passes,
      otherwise the report of the earliest failing check. */
  function Evaluate<F>(checks: seq<Check<F>>): (r: Option<Rejection<F>>)
    ensures r.None? <==> forall m :: 0 <= m < |checks| ==> checks[m].passes
    ensures r.Some? ==>
              exists k :: 0 <= k < |checks| && !checks[k].passes
                          && (forall m :: 0 <= m < k ==> checks[m].passes)
                          && r.value == Rejection(checks[k].field, checks[k].message)
  {
    var k := FirstFailing(checks);
    if k < |checks| then Some(Rejection(checks[k].field, checks[k].message)) else None
  }
}

=== FILE: login.dfy ===
/** The login page. Apart from the focus helpers, its email/password
    handlers repeat the login form's statement for statement, so they are
    the `LoginForm` functions; the page adds sign-in with a Google popup,
    which skips local validation. The page is modelled as a machine over
    the user's events. */
module Login {
  import Common
  import Validation
  import LoginForm

  type State = LoginForm.State
  type Field = LoginForm.Field

  /** One user action on the page, with the outcome of any vendor call it
      makes. */
  datatype Event =
    | Input(field: Field, value: string)
    | Blur(field: Field)
    | ToggleShowPassword
    | ForgotPassword(reset: LoginForm.ResetOutcome)
    | Submit(signIn: LoginForm.SignInOutcome)
    | GoogleSignIn(popup: LoginForm.SignInOutcome)

  /** Sign-in with the Google popup: no local check at all; the popup's
      outcome settles the page exactly as a password sign-in would. */
  function LoginWithGoogle(s: State, o: LoginForm.SignInOutcome): (r: State)
    ensures LoginForm.Settled(s, r, o)
  {
    LoginForm.Resolve(s.(loading := true), o)
  }

  /** Unlike submit, the popup is opened whatever the fields hold: its
      outcome always reaches the page. */
  lemma GoogleSkipsValidation(s: State)
    ensures !(forall o1, o2 :: LoginWithGoogle(s, o1) == LoginWithGoogle(s, o2))
  {
    var a := LoginWithGoogle(s, LoginForm.SignInFailed("a"));
    var b := LoginWithGoogle(s, LoginForm.SignInFailed("b"));
    assert a.formError != b.formError;
  }

  /** Whether an event types into `f`, the only way to clear f's error. */
  predicate Edits(e: Event, f: Field)
  {
    e.Input? && e.field == f
  }

  /** The page's reaction to one event. An event never turns loading on,
      a call that was made always ends with loading off, and only typing
      into a field clears that field's error. */
  function Handle(s: State, e: Event): (r: State)
    ensures !s.loading ==> !r.loading
    ensures e.GoogleSignIn? || (e.Submit? && LoginForm.Verdict(s.data).None?) ==> !r.loading
    ensures forall f :: !Edits(e, f) && LoginForm.ErrorOf(s, f) != "" ==> LoginForm.ErrorOf(r, f) != ""
    ensures e.Input? ==> LoginForm.ValueOf(r.data, e.field) == e.value
    ensures !e.Input? ==> r.data == s.data
  {
    match e
    case Input(f, v) => LoginForm.Input(s, f, v)
    case Blur(f) => LoginForm.Blur(s, f)
    case ToggleShowPassword => LoginForm.ToggleShowPassword(s)
    case ForgotPassword(o) => LoginForm.ForgotPassword(s, o)
    case Submit(o) => LoginForm.Submit(s, o)
    case GoogleSignIn(o) => LoginWithGoogle(s, o)
  }

  /** The page after a sequence of events, oldest first. */
  function Run(s: State, events: seq<Event>): State
    decreases |events|
  {
    if |events| == 0 then s else Run(Handle(s, events[0]), events[1..])
  }

  /** An inline error, once shown, stays shown until the user types into
      that field, whatever else happens in between. */
  lemma {:induction false} ErrorPersistsUntilEdited(s: State, events: seq<Event>, f: Field)
    requires LoginForm.ErrorOf(s, f) != ""
    requires forall k :: 0 <= k < |events| ==> !Edits(events[k], f)
    ensures LoginForm.ErrorOf(Run(s, events), f) != ""
    decreases |events|
  {
    if |events| > 0 {
      var next := Handle(s, events[0]);
      assert !Edits(events[0], f);
      assert forall k :: 0 <= k < |events| - 1 ==> events[1..][k] == events[k + 1];
      ErrorPersistsUntilEdited(next, events[1..], f);
    }
  }

  /** A well-formed email and a long-enough password, used by the trace
      below. */
  lemma SampleCredentialsValid()
    ensures Validation.IsValidEmail("a@b.co") && Validation.IsValidPassword("12345678")
  {
    var email := "a@b.co";
    assert email[1] == '@' && email[3] == '.';
    assert Validation.AtThenDot(email) && Validation.NoWhitespace(email);
  }

  /** A successful sign-in does not clear a form error left by an earlier
      failed one: the stored account and the old message show together. */
  lemma StaleErrorBesideAccount(a: Common.Account)
    ensures var r := Run(LoginForm.Initial,
              [ Input(LoginForm.Email, "a@b.co"), Input(LoginForm.Password, "12345678"),
                Submit(LoginForm.SignInFailed("network")), Submit(LoginForm.SignedIn(Common.Some(a))) ]);
            r.userDetails == Common.Some(a) && r.formError == "network" && !r.loading
  {
    SampleCredentialsValid();
    var events := [ Input(LoginForm.Email, "a@b.co"), Input(LoginForm.Password, "12345678"),
                    Submit(LoginForm.SignInFailed("network")), Submit(LoginForm.SignedIn(Common.Some(a))) ];
    var s2 := LoginForm.Initial.(data := LoginForm.Values("a@b.co", "12345678"));
    assert Handle(Handle(LoginForm.Initial, events[0]), events[1]) == s2;
    var s3 := s2.(formError := "network");
    assert Handle(s2, events[2]) == s3;
    var s4 := s3.(userDetails := Common.Some(a));
    assert Handle(s3, events[3]) == s4;
    assert Run(s4, events[4..]) == s4;
    assert Run(s3, events[3..]) == s4;
    assert Run(s2, events[2..]) == s4;
  }

  /** Starting from a page that is not loading, no sequence of events
      leaves it loading: every vendor call ends by clearing the flag. */
  lemma {:induction false} NeverLeftLoading(s: State, events: seq<Event>)
    requires !s.loading
    ensures !Run(s, events).loading
    decreases |events|
  {
    if |events| > 0 {
      NeverLeftLoading(Handle(s, events[0]), events[1..]);
    }
  }
}

=== FILE: login_form.dfy ===
/** The email/password login form: two text fields, their inline errors,
    a form-level error, a notification line, a loading flag, the
    show-password toggle, and the account document read after sign-in. */
module LoginForm {
  import opened Common
  import opened Validation
  import Gate

  /* ---------- State ---------- */

  datatype Field = Email | Password

  datatype Values = Values(email: string, password: string)

  datatype State = State(
    data: Values,
    formError: string,
    emailError: string,
    passwordError: string,
    showPassword: bool,
    loading: bool,
    notification: string,
    userDetails: Option<Account>)

  /** The state the form starts in. */
  const Initial := State(Values("", ""), "", "", "", false, false, "", None)

  const EmailRequired := "Please enter your email address."
  const EmailInvalid := "Please enter a valid email address."
  const PasswordRequired := "Please enter your password."
  const PasswordTooShort := "Please enter your password containing min 8 characters."
  const NoAccount := "You currently don't have an account. Please register to proceed."
  const ResetSentNotice := "A password reset email has been sent to your email address. Please reset your password and then log in."

  function ValueOf(d: Values, f: Field): string
  {
    match f
    case Email => d.email
    case Password => d.password
  }

  function ErrorOf(s: State, f: Field): string
  {
    match f
    case Email => s.emailError
    case Password => s.passwordError
  }

  /** `r` differs from `s` at most in the inline error of `f`, which reads
      `message`. */
  ghost predicate OnlyErrorSet(s: State, r: State, f: Field, message: string)
  {
    && ErrorOf(r, f) == message
    && (forall g :: g != f ==> ErrorOf(r, g) == ErrorOf(s, g))
    && r.data == s.data && r.formError == s.formError && r.notification == s.notification
    && r.loading == s.loading && r.showPassword == s.showPassword && r.userDetails == s.userDetails
  }

  /** `s` with the inline error of `f` replaced and everything else kept. */
  function WithError(s: State, f: Field, message: string): (r: State)
    ensures OnlyErrorSet(s, r, f, message)
  {
    match f
    case Email => s.(emailError := message)
    case Password => s.(passwordError := message)
  }

  /** The rule each field must meet, as a predicate on its value alone. */
  predicate FieldValid(d: Values, f: Field)
  {
    match f
    case Email => IsValidEmail(d.email)
    case Password => IsValidPassword(d.password)
  }

  function RequiredMessage(f: Field): string
  {
    match f
    case Email => EmailRequired
    case Password => PasswordRequired
  }

  function InvalidMessage(f: Field): string
  {
    match f
    case Email => EmailInvalid
    case Password => PasswordTooShort
  }

  /* ---------- Show / hide password ---------- */

  function ToggleShowPassword(s: State): (r: State)
    ensures r.showPassword != s.showPassword
    ensures r.(showPassword := s.showPassword) == s
  {
    s.(showPassword := !s.showPassword)
  }

  lemma ToggleShowPasswordInvolution(s: State)
    ensures ToggleShowPassword(ToggleShowPassword(s)) == s
    ensures ToggleShowPassword(s) != s
  {
  }

  /* ---------- Editing ---------- */

  /** Typing into a field: the field takes the new value, and its own
      error, the form error and the notification are cleared. */
  function Input(s: State, f: Field, value: string): (r: State)
    ensures ValueOf(r.data, f) == value
    ensures ErrorOf(r, f) == "" && r.formError == "" && r.notification == ""
    ensures forall g :: g != f ==> ValueOf(r.data, g) == ValueOf(s.data, g) && ErrorOf(r, g) == ErrorOf(s, g)
    ensures r.showPassword == s.showPassword && r.loading == s.loading && r.userDetails == s.userDetails
  {
    var cleared := s.(formError := "", notification := "");
    match f
    case Email => cleared.(data := s.data.(email := value), emailError := "")
    case Password => cleared.(data := s.data.(password := value), passwordError := "")
  }

  /* ---------- Leaving a field ---------- */

  /** Leaving a field: an empty value gets the "please enter" message, a
      non-empty value that breaks the field's rule gets the "valid value"
      message, and a valid value leaves the state as it was. Only the
      field's own error can change, and an error already shown is never
      cleared. */
  function Blur(s: State, f: Field): (r: State)
    ensures FieldValid(s.data, f) ==> r == s
    ensures ValueOf(s.data, f) == "" ==> ErrorOf(r, f) == RequiredMessage(f)
    ensures ValueOf(s.data, f) != "" && !FieldValid(s.data, f) ==> ErrorOf(r, f) == InvalidMessage(f)
    ensures OnlyErrorSet(s, r, f, ErrorOf(r, f))
    ensures forall g :: ErrorOf(s, g) != "" ==> ErrorOf(r, g) != ""
  {
    if ValueOf(s.data, f) == "" then WithError(s, f, RequiredMessage(f))
    else if !FieldValid(s.data, f) then WithError(s, f, InvalidMessage(f))
    else s
  }

  /* ---------- Submit ---------- */

  /** The submit chain, in the order the handler tests it. */
  function SubmitChecks(d: Values): seq<Gate.Check<Field>>
  {
    [ Gate.Check(d.email != "", Email, EmailRequired),
      Gate.Check(IsValidEmail(d.email), Email, EmailInvalid),
      Gate.Check(d.password != "", Password, PasswordRequired),
      Gate.Check(IsValidPassword(d.password), Password, PasswordTooShort) ]
  }

  /** The local verdict of a submit: which field's error it sets, if any.
      Sign-in is attempted exactly when the email is well formed and the
      password is long enough; a password problem is reported only once
      the email is fine. */
  function Verdict(d: Values): (r: Option<Gate.Rejection<Field>>)
    ensures r.None? <==> IsValidEmail(d.email) && IsValidPassword(d.password)
    ensures r.Some? ==> !FieldValid(d, r.value.field)
    ensures r.Some? && r.value.field == Password ==> IsValidEmail(d.email)
    ensures r.Some? ==> r.value.message != ""
  {
    if d.email == "" then Some(Gate.Rejection(Email, EmailRequired))
    else if !IsValidEmail(d.email) then Some(Gate.Rejection(Email, EmailInvalid))
    else if d.password == "" then Some(Gate.Rejection(Password, PasswordRequired))
    else if !IsValidPassword(d.password) then Some(Gate.Rejection(Password, PasswordTooShort))
    else None
  }

  /** The handler's if/else chain reports exactly the first failing check
      of the ordered list. */
  lemma VerdictFollowsPriority(d: Values)
    ensures Verdict(d) == Gate.Evaluate(SubmitChecks(d))
  {
    var cs := SubmitChecks(d);
    var k := Gate.FirstFailing(cs);
    if d.email == "" {
      assert !cs[0].passes;
    } else if !IsValidEmail(d.email) {
      assert !cs[1].passes && cs[0].passes;
    } else if d.password == "" {
      assert !cs[2].passes && cs[0].passes && cs[1].passes;
    } else if !IsValidPassword(d.password) {
      assert !cs[3].passes && cs[0].passes && cs[1].passes && cs[2].passes;
    }
  }

  /** How a sign-in attempt that passed local validation ended, as seen by
      the form: the account document was read, the user has no document,
      or some call threw. */
  datatype SignInOutcome = SignedIn(document: Option<Account>) | SignInFailed(message: string)

  /** The state a finished sign-in leaves: loading is off, the field values
      and inline errors are as before, and the call's single effect shows:
      the account is stored, the "no account" error is shown, or the
      failure's message is shown. A form error shown before the call is
      kept on success. */
  ghost predicate Settled(s: State, r: State, o: SignInOutcome)
  {
    && !r.loading
    && r == s.(loading := false, userDetails := r.userDetails, formError := r.formError)
    && match o
       case SignedIn(Some(a)) => r.userDetails == Some(a) && r.formError == s.formError
       case SignedIn(None) => r.formError == NoAccount && r.userDetails == s.userDetails
       case SignInFailed(m) => r.formError == m && r.userDetails == s.userDetails
  }

  /** The `try/catch/finally` around a sign-in call, entered with the
      loading flag already set. */
  function Resolve(s: State, o: SignInOutcome): (r: State)
    ensures Settled(s, r, o)
  {
    match o
    case SignedIn(Some(a)) => s.(loading := false, userDetails := Some(a))
    case SignedIn(None) => s.(loading := false, formError := NoAccount)
    case SignInFailed(m) => s.(loading := false, formError := m)
  }

  /** Submitting: a failed check sets that one field's error and nothing
      else; a passing chain reaches sign-in and settles with its outcome. */
  function Submit(s: State, o: SignInOutcome): (r: State)
    ensures Verdict(s.data).Some? ==>
              OnlyErrorSet(s, r, Verdict(s.data).value.field, Verdict(s.data).value.message)
    ensures Verdict(s.data).None? ==> Settled(s, r, o)
  {
    match Verdict(s.data)
    case Some(rejection) => WithError(s, rejection.field, rejection.message)
    case None => Resolve(s.(loading := true), o)
  }

  /** Submitting the untouched form asks for the email and does nothing
      else. */
  lemma EmptySubmitAsksForEmail(o: SignInOutcome)
    ensures Submit(Initial, o) == Initial.(emailError := EmailRequired)
  {
  }

  /** The outcome of the sign-in call can influence the result exactly when
      the chain passes: a rejected submit never reaches the call. */
  lemma SubmitReachesSignInIff(s: State)
    ensures (forall o1, o2 :: Submit(s, o1) == Submit(s, o2)) <==> Verdict(s.data).Some?
  {
    if Verdict(s.data).None? {
      assert Submit(s, SignInFailed("a")).formError != Submit(s, SignInFailed("b")).formError;
    }
  }

  /* ---------- Forgot password ---------- */

  /** How a password-reset request that passed the email checks ended. */
  datatype ResetOutcome = ResetSent | ResetFailed(message: string)

  /** Asking for a reset email: the same two email checks as submit; when
      one fails only the email error is set, otherwise the request is sent
      and either the fixed notice or the failure's message is shown. */
  function ForgotPassword(s: State, o: ResetOutcome): (r: State)
    ensures s.data.email == "" ==> OnlyErrorSet(s, r, Email, EmailRequired)
    ensures s.data.email != "" && !IsValidEmail(s.data.email) ==> OnlyErrorSet(s, r, Email, EmailInvalid)
    ensures IsValidEmail(s.data.email) && o.ResetSent? ==> r == s.(notification := ResetSentNotice)
    ensures IsValidEmail(s.data.email) && o.ResetFailed? ==> r == s.(formError := o.message)
  {
    if s.data.email == "" then WithError(s, Email, EmailRequired)
    else if !IsValidEmail(s.data.email) then WithError(s, Email, EmailInvalid)
    else
      match o
      case ResetSent => s.(notification := ResetSentNotice)
      case ResetFailed(m) => s.(formError := m)
  }

  /** The reset request never looks at the password, and reaches the
      vendor exactly when the email is well formed. */
  lemma ForgotPasswordIgnoresPassword(s: State, o: ResetOutcome, password: string)
    ensures ForgotPassword(s.(data := s.data.(password := password)), o)
         == ForgotPassword(s, o).(data := s.data.(password := password))
    ensures (forall o1, o2 :: ForgotPassword(s, o1) == ForgotPassword(s, o2)) <==> !IsValidEmail(s.data.email)
  {
    if IsValidEmail(s.data.email) {
      assert ForgotPassword(s, ResetSent).notification != ForgotPassword(s, ResetFailed("")).notification
          || ForgotPassword(s, ResetSent).formError != ForgotPassword(s, ResetFailed("")).formError
          || ForgotPassword(s, ResetSent).formError != ForgotPassword(s, ResetFailed("x")).formError;
    }
  }
}

=== FILE: register_form.dfy ===
/** The registration form: a profile image (only its presence matters
    here), name, email, an unused phone slot, password and confirmation,
    with an inline error per field, a form-level error, a notification
    line, a loading flag, two show-password toggles and the account
    document the form ends up with. */
module RegisterForm {
  import opened Common
  import opened Validation
  import Gate

  /* ---------- State ---------- */

  datatype Field = Image | UserName | Email | Phone | Password | ConfirmPassword

  /** `image` records whether a picture has been chosen; its data URL is
      not modelled. The phone value has no input and is never read. */
  datatype Values = Values(
    image: bool,
    userName: string,
    email: string,
    phone: string,
    password: string,
    confirmPassword: string)

  datatype Errors = Errors(
    formError: string,
    imageError: string,
    userNameError: string,
    emailError: string,
    phoneError: string,
    passwordError: string,
    confirmPasswordError: string)

  datatype State = State(
    data: Values,
    errors: Errors,
    showPassword: bool,
    showConfirmPassword: bool,
    notification: string,
    loading: bool,
    userDetails: Option<Account>)

  const Initial := State(Values(false, "", "", "", "", ""), Errors("", "", "", "", "", "", ""),
                         false, false, "", false, None)

  const ImageRequired := "Please select an image."
  const NameRequired := "Please enter your name."
  const NameHasDigits := "Please enter valid name i.e. without numbers."
  const EmailRequired := "Please enter your email address."
  const EmailInvalid := "Please enter a valid email address."
  /** The submit handler's wording lacks the final period of the blur one. */
  const EmailInvalidOnSubmit := "Please enter a valid email address"
  const PasswordRequired := "Please enter your password."
  const PasswordTooShort := "Please enter your password containing min 8 characters."
  const ConfirmRequired := "Please re-enter your password."
  const PasswordsDiffer := "Both passwords do not match. Please recheck."
  /** The role tag written into every new account document. */
  const UserRole := "user"

  /** The text value behind a field; the image slot holds no text. */
  function TextOf(d: Values, f: Field): string
    requires f != Image
  {
    match f
    case UserName => d.userName
    case Email => d.email
    case Phone => d.phone
    case Password => d.password
    case ConfirmPassword => d.confirmPassword
  }

  function ErrorOf(e: Errors, f: Field): string
  {
    match f
    case Image => e.imageError
    case UserName => e.userNameError
    case Email => e.emailError
    case Phone => e.phoneError
    case Password => e.passwordError
    case ConfirmPassword => e.confirmPasswordError
  }

  /** `r` differs from `s` at most in the inline error of `f`, which reads
      `message`. */
  ghost predicate OnlyErrorSet(s: State, r: State, f: Field, message: string)
  {
    && ErrorOf(r.errors, f) == message
    && (forall g :: g != f ==> ErrorOf(r.errors, g) == ErrorOf(s.errors, g))
    && r.errors.formError == s.errors.formError
    && r.data == s.data && r.notification == s.notification && r.loading == s.loading
    && r.showPassword == s.showPassword && r.showConfirmPassword == s.showConfirmPassword
    && r.userDetails == s.userDetails
  }

  /** `s` with the inline error of `f` replaced and everything else kept. */
  function WithError(s: State, f: Field, message: string): (r: State)
    ensures OnlyErrorSet(s, r, f, message)
  {
    var e := s.errors;
    var e' := match f
      case Image => e.(imageError := message)
      case UserName => e.(userNameError := message)
      case Email => e.(emailError := message)
      case Phone => e.(phoneError := message)
      case Password => e.(passwordError := message)
      case ConfirmPassword => e.(confirmPasswordError := message);
    s.(errors := e')
  }

  /** The fields with a text input handler. */
  predicate IsTextInput(f: Field)
  {
    f == UserName || f == Email || f == Password || f == ConfirmPassword
  }

  /** The fields with a blur handler: all but the phone slot. */
  predicate HasBlurHandler(f: Field)
  {
    f != Phone
  }

  /** Nothing entered: no image chosen, or an empty text value. */
  predicate Blank(d: Values, f: Field)
  {
    if f == Image then !d.image else TextOf(d, f) == ""
  }

  /** The rule each field is held to when the user leaves it. */
  predicate FieldValid(d: Values, f: Field)
    requires HasBlurHandler(f)
  {
    match f
    case Image => d.image
    case UserName => d.userName != "" && IsValidUsername(d.userName)
    case Email => IsValidEmail(d.email)
    case Password => IsValidPassword(d.password)
    case ConfirmPassword => d.confirmPassword != "" && d.confirmPassword == d.password
  }

  function RequiredMessage(f: Field): string
    requires HasBlurHandler(f)
  {
    match f
    case Image => ImageRequired
    case UserName => NameRequired
    case Email => EmailRequired
    case Password => PasswordRequired
    case ConfirmPassword => ConfirmRequired
  }

  /** The message for a non-empty value that breaks its rule (on blur). */
  function InvalidMessage(f: Field): string
    requires IsTextInput(f)
  {
    match f
    case UserName => NameHasDigits
    case Email => EmailInvalid
    case Password => PasswordTooShort
    case ConfirmPassword => PasswordsDiffer
  }

  /* ---------- Show / hide passwords ---------- */

  function ToggleShowPassword(s: State): (r: State)
    ensures r.showPassword != s.showPassword
    ensures r.(showPassword := s.showPassword) == s
  {
    s.(showPassword := !s.showPassword)
  }

  function ToggleShowConfirmPassword(s: State): (r: State)
    ensures r.showConfirmPassword != s.showConfirmPassword
    ensures r.(showConfirmPassword := s.showConfirmPassword) == s
  {
    s.(showConfirmPassword := !s.showConfirmPassword)
  }

  lemma TogglesAreInvolutions(s: State)
    ensures ToggleShowPassword(ToggleShowPassword(s)) == s
    ensures ToggleShowConfirmPassword(ToggleShowConfirmPassword(s)) == s
    ensures ToggleShowConfirmPassword(ToggleShowPassword(s)) == ToggleShowPassword(ToggleShowConfirmPassword(s))
  {
  }

  /* ---------- Editing ---------- */

  /** Typing into a text field: the field takes the new value, and its own
      error, the form error and the notification are cleared; every other
      value and error is kept. */
  function Edit(s: State, f: Field, value: string): (r: State)
    requires IsTextInput(f)
    ensures TextOf(r.data, f) == value && r.data.image == s.data.image
    ensures forall g :: g != Image && g != f ==> TextOf(r.data, g) == TextOf(s.data, g)
    ensures ErrorOf(r.errors, f) == "" && r.errors.formError == "" && r.notification == ""
    ensures forall g :: g != f ==> ErrorOf(r.errors, g) == ErrorOf(s.errors, g)
    ensures r.showPassword == s.showPassword && r.showConfirmPassword == s.showConfirmPassword
    ensures r.loading == s.loading && r.userDetails == s.userDetails
  {
    var d := s.data;
    var d' := match f
      case UserName => d.(userName := value)
      case Email => d.(email := value)
      case Password => d.(password := value)
      case ConfirmPassword => d.(confirmPassword := value);
    var cleared := WithError(s, f, "");
    cleared.(data := d', errors := cleared.errors.(formError := ""), notification := "")
  }

  /** What choosing an image yields once the reader's `onloadend` has
      fired: no file was chosen, the file was read into a data URL, or the
      read failed or was aborted, which leaves a null result. */
  datatype ImagePick = NoFile | Loaded | LoadFailed

  /** Choosing an image (by the file picker or by dropping a file) as the
      handlers are written: the reader's result replaces the image, so a
      failed read empties the slot even when an image was chosen before;
      no error is touched, so an image error shown earlier stays on
      screen. */
  function SelectImageAsWritten(s: State, pick: ImagePick): (r: State)
    ensures pick.Loaded? ==> r.data.image
    ensures pick.LoadFailed? ==> !r.data.image
    ensures !pick.NoFile? ==> r.data == s.data.(image := r.data.image) && r.(data := s.data) == s
    ensures pick.NoFile? ==> r == s
  {
    match pick
    case NoFile => s
    case Loaded => s.(data := s.data.(image := true))
    case LoadFailed => s.(data := s.data.(image := false))
  }

  /** The image error means what it says: it is shown only while no image
      is chosen. */
  predicate ImageErrorHonest(s: State)
  {
    ErrorOf(s.errors, Image) != "" ==> !s.data.image
  }

  /** With the handlers as written, leaving the empty image slot and then
      choosing an image shows "Please select an image." next to the chosen
      image. */
  lemma ImageErrorOutlivesImage()
    ensures var s := SelectImageAsWritten(Blur(Initial, Image), Loaded);
            s.data.image && ErrorOf(s.errors, Image) == ImageRequired && !ImageErrorHonest(s)
  {
  }

  /** Choosing an image, handled like the text inputs: a loaded image is
      stored and its error, the form error and the notification are
      cleared. A failed read empties the slot, as written. */
  function SelectImage(s: State, pick: ImagePick): (r: State)
    ensures pick.Loaded? ==> r.data.image && ErrorOf(r.errors, Image) == "" && r.errors.formError == "" && r.notification == ""
    ensures !pick.NoFile? ==> forall g :: g != Image ==> TextOf(r.data, g) == TextOf(s.data, g)
    ensures forall g :: g != Image ==> ErrorOf(r.errors, g) == ErrorOf(s.errors, g)
    ensures r.showPassword == s.showPassword && r.showConfirmPassword == s.showConfirmPassword
    ensures r.loading == s.loading && r.userDetails == s.userDetails
    ensures ImageErrorHonest(s) ==> ImageErrorHonest(r)
    ensures !pick.Loaded? ==> r == SelectImageAsWritten(s, pick)
  {
    match pick
    case Loaded =>
      var cleared := WithError(s, Image, "");
      cleared.(data := s.data.(image := true), errors := cleared.errors.(formError := ""), notification := "")
    case _ => SelectImageAsWritten(s, pick)
  }

  /* ---------- Leaving a field ---------- */

  /** Leaving a field: a blank field gets its "please enter/select"
      message, a non-empty value that breaks the field's rule gets the
      rule's message, and a valid value leaves the state as it was. Only
      the field's own error can change, and an error is never cleared. */
  function Blur(s: State, f: Field): (r: State)
    requires HasBlurHandler(f)
    ensures FieldValid(s.data, f) ==> r == s
    ensures Blank(s.data, f) ==> ErrorOf(r.errors, f) == RequiredMessage(f)
    ensures !Blank(s.data, f) && !FieldValid(s.data, f) ==> IsTextInput(f) && ErrorOf(r.errors, f) == InvalidMessage(f)
    ensures OnlyErrorSet(s, r, f, ErrorOf(r.errors, f))
    ensures forall g :: ErrorOf(s.errors, g) != "" ==> ErrorOf(r.errors, g) != ""
  {
    if Blank(s.data, f) then WithError(s, f, RequiredMessage(f))
    else if !FieldValid(s.data, f) then WithError(s, f, InvalidMessage(f))
    else s
  }

  /* ---------- Submit ---------- */

  /** The submit chain, in the order the handler tests it. */
  function SubmitChecks(d: Values): seq<Gate.Check<Field>>
  {
    [ Gate.Check(d.image, Image, ImageRequired),
      Gate.Check(d.userName != "", UserName, NameRequired),
      Gate.Check(d.email != "", Email, EmailRequired),
      Gate.Check(IsValidEmail(d.email), Email, EmailInvalidOnSubmit),
      Gate.Check(d.password != "", Password, PasswordRequired),
      Gate.Check(IsValidPassword(d.password), Password, PasswordTooShort),
      Gate.Check(d.confirmPassword != "", ConfirmPassword, ConfirmRequired),
      Gate.Check(d.password == d.confirmPassword, ConfirmPassword, PasswordsDiffer) ]
  }

  /** The local verdict of a submit. Account creation is attempted exactly
      when an image is chosen, the name is non-empty, the email is well
      formed, the password is long enough and the confirmation equals it.
      Every rejected field except the name really breaks its blur rule;
      the name is only required to be non-empty here, digits and all. */
  function Verdict(d: Values): (r: Option<Gate.Rejection<Field>>)
    ensures r.None? <==> d.image && d.userName != "" && IsValidEmail(d.email)
                         && IsValidPassword(d.password) && d.confirmPassword == d.password
    ensures r.Some? ==> HasBlurHandler(r.value.field) && r.value.message != ""
    ensures r.Some? && r.value.field != UserName ==> !FieldValid(d, r.value.field)
    ensures r.Some? && r.value.field == UserName ==> d.image && d.userName == ""
  {
    if !d.image then Some(Gate.Rejection(Image, ImageRequired))
    else if d.userName == "" then Some(Gate.Rejection(UserName, NameRequired))
    else if d.email == "" then Some(Gate.Rejection(Email, EmailRequired))
    else if !IsValidEmail(d.email) then Some(Gate.Rejection(Email, EmailInvalidOnSubmit))
    else if d.password == "" then Some(Gate.Rejection(Password, PasswordRequired))
    else if !IsValidPassword(d.password) then Some(Gate.Rejection(Password, PasswordTooShort))
    else if d.confirmPassword == "" then Some(Gate.Rejection(ConfirmPassword, ConfirmRequired))
    else if d.password != d.confirmPassword then Some(Gate.Rejection(ConfirmPassword, PasswordsDiffer))
    else None
  }

  /** The handler's if/else chain reports exactly the first failing check
      of the ordered list. */
  lemma VerdictFollowsPriority(d: Values)
    ensures Verdict(d) == Gate.Evaluate(SubmitChecks(d))
  {
    var cs := SubmitChecks(d);
    var k := Gate.FirstFailing(cs);
    if !d.image {
      assert !cs[0].passes;
    } else if d.userName == "" {
      assert !cs[1].passes;
    } else if d.email == "" {
      assert !cs[2].passes;
    } else if !IsValidEmail(d.email) {
      assert !cs[3].passes;
    } else if d.password == "" {
      assert !cs[4].passes;
    } else if !IsValidPassword(d.password) {
      assert !cs[5].passes;
    } else if d.confirmPassword == "" {
      assert !cs[6].passes;
    } else if d.password != d.confirmPassword {
      assert !cs[7].passes;
    }
  }

  /** Submit never applies the digit rule: changing an accepted name to
      any other non-empty name, digits included, keeps the submit
      accepted. */
  lemma SubmitIgnoresNameDigits(d: Values, name: string)
    requires Verdict(d).None?
    requires name != ""
    ensures Verdict(d.(userName := name)).None?
  {
  }

  /** A concrete form that blur rejects for its name and submit accepts. */
  lemma BlurAndSubmitDisagreeOnName()
    ensures var d := Values(true, "R2D2", "r2@d2.io", "", "droid123", "droid123");
            !FieldValid(d, UserName) && Verdict(d).None?
  {
    var d := Values(true, "R2D2", "r2@d2.io", "", "droid123", "droid123");
    assert IsDigit(d.userName[1]);
    assert d.email[2] == '@' && d.email[5] == '.';
    assert AtThenDot(d.email);
    assert NoWhitespace(d.email);
  }

  /** How an account creation that passed local validation ended: the new
      user already had an account document, a fresh document was written
      with the uploaded image's URL, or some call threw. */
  datatype CreateOutcome =
    | Existing(document: Account)
    | Created(userId: string, imageUrl: string)
    | CreateFailed(message: string)

  /** The state a finished account creation leaves: loading is off, values
      and inline errors are as before, and the call's single effect shows:
      the existing document, a new document built from the form's name and
      email with the "user" role, or the failure's message. A form error
      shown before the call is kept on success. */
  ghost predicate Settled(s: State, r: State, o: CreateOutcome)
  {
    && !r.loading
    && r == s.(loading := false, userDetails := r.userDetails,
               errors := s.errors.(formError := r.errors.formError))
    && match o
       case Existing(a) => r.userDetails == Some(a) && r.errors.formError == s.errors.formError
       case Created(id, url) =>
         && r.userDetails.Some?
         && r.userDetails.value.userId == id && r.userDetails.value.image == url
         && r.userDetails.value.userName == s.data.userName
         && r.userDetails.value.email == s.data.email
         && r.userDetails.value.role == UserRole
         && r.errors.formError == s.errors.formError
       case CreateFailed(m) => r.errors.formError == m && r.userDetails == s.userDetails
  }

  /** The `try/catch/finally` around account creation, entered with the
      loading flag already set. */
  function Resolve(s: State, o: CreateOutcome): (r: State)
    ensures Settled(s, r, o)
  {
    match o
    case Existing(a) => s.(loading := false, userDetails := Some(a))
    case Created(id, url) =>
      s.(loading := false, userDetails := Some(Account(id, s.data.userName, s.data.email, UserRole, url)))
    case CreateFailed(m) => s.(loading := false, errors := s.errors.(formError := m))
  }

  /** Submitting: a failed check sets that one field's error and nothing
      else; a passing chain reaches account creation and settles with its
      outcome. */
  function Submit(s: State, o: CreateOutcome): (r: State)
    ensures Verdict(s.data).Some? ==>
              OnlyErrorSet(s, r, Verdict(s.data).value.field, Verdict(s.data).value.message)
    ensures Verdict(s.data).None? ==> Settled(s, r, o)
  {
    match Verdict(s.data)
    case Some(rejection) => WithError(s, rejection.field, rejection.message)
    case None => Resolve(s.(loading := true), o)
  }

  /** The outcome of account creation can influence the result exactly
      when the chain passes: a rejected submit never reaches the call. */
  lemma SubmitReachesCreateIff(s: State)
    ensures (forall o1, o2 :: Submit(s, o1) == Submit(s, o2)) <==> Verdict(s.data).Some?
  {
    if Verdict(s.data).None? {
      assert Submit(s, CreateFailed("a")).errors.formError != Submit(s, CreateFailed("b")).errors.formError;
    }
  }

  /** As written, a read that fails after an image was loaded empties the
      slot again, so the next submit asks for an image. */
  lemma FailedReadRejectsSubmit(s: State)
    ensures var r := SelectImageAsWritten(SelectImageAsWritten(s, Loaded), LoadFailed);
            !r.data.image && Verdict(r.data) == Some(Gate.Rejection(Image, ImageRequired))
  {
  }

  /* ---------- The form as a machine over events ---------- */

  /** One user action on the form, with the outcome of any vendor call it
      makes, and the reader's result for a chosen image. */
  datatype Event =
    | Type(field: Field, value: string)
    | Leave(field: Field)
    | PickImage(pick: ImagePick)
    | ToggleShowPassword
    | ToggleShowConfirmPassword
    | SubmitForm(outcome: CreateOutcome)

  /** Events the form has a handler for. */
  predicate Handled(e: Event)
  {
    match e
    case Type(f, _) => IsTextInput(f)
    case Leave(f) => HasBlurHandler(f)
    case _ => true
  }

  /** Whether an event is the user changing field `f`. */
  predicate Edits(e: Event, f: Field)
  {
    (e.Type? && e.field == f) || (e == PickImage(Loaded) && f == Image)
  }

  /** The form's reaction to one event, with the corrected image picker
      (`SelectImage`). An event never turns loading on, only changing a
      field clears its error, and the image error stays honest. */
  function Handle(s: State, e: Event): (r: State)
    requires Handled(e)
    ensures !s.loading ==> !r.loading
    ensures forall f :: !Edits(e, f) && ErrorOf(s.errors, f) != "" ==> ErrorOf(r.errors, f) != ""
    ensures ImageErrorHonest(s) ==> ImageErrorHonest(r)
    ensures !e.Type? && !e.PickImage? ==> r.data == s.data
  {
    match e
    case Type(f, v) => Edit(s, f, v)
    case Leave(f) => Blur(s, f)
    case PickImage(pick) => SelectImage(s, pick)
    case ToggleShowPassword => ToggleShowPassword(s)
    case ToggleShowConfirmPassword => ToggleShowConfirmPassword(s)
    case SubmitForm(o) => Submit(s, o)
  }

  /** The form after a sequence of events, oldest first. */
  function Run(s: State, events: seq<Event>): State
    requires forall k :: 0 <= k < |events| ==> Handled(events[k])
    decreases |events|
  {
    if |events| == 0 then s else Run(Handle(s, events[0]), events[1..])
  }

  /** An inline error, once shown, stays shown until the user changes that
      field, whatever else happens in between. */
  lemma {:induction false} ErrorPersistsUntilEdited(s: State, events: seq<Event>, f: Field)
    requires forall k :: 0 <= k < |events| ==> Handled(events[k])
    requires ErrorOf(s.errors, f) != ""
    requires forall k :: 0 <= k < |events| ==> !Edits(events[k], f)
    ensures ErrorOf(Run(s, events).errors, f) != ""
    decreases |events|
  {
    if |events| > 0 {
      assert !Edits(events[0], f);
      assert forall k :: 0 <= k < |events| - 1 ==> events[1..][k] == events[k + 1];
      ErrorPersistsUntilEdited(Handle(s, events[0]), events[1..], f);
    }
  }

  /** With the corrected image picker, from a form whose image error is
      honest and which is not loading, whatever the user does, the image
      error is shown only while no image is chosen, and the form is never
      left loading. */
  lemma {:induction false} ReachableStatesAreSound(s: State, events: seq<Event>)
    requires forall k :: 0 <= k < |events| ==> Handled(events[k])
    requires ImageErrorHonest(s) && !s.loading
    ensures ImageErrorHonest(Run(s, events)) && !Run(s, events).loading
    decreases |events|
  {
    if |events| > 0 {
      assert forall k :: 0 <= k < |events| - 1 ==> events[1..][k] == events[k + 1];
      ReachableStatesAreSound(Handle(s, events[0]), events[1..]);
    }
  }

  /* ---------- The form as written ---------- */

  /** Whether an event types into field `f`: the only thing the handlers as
      written ever clear an inline error for. */
  predicate TypesInto(e: Event, f: Field)
  {
    e.Type? && e.field == f
  }

  /** The form's reaction to one event with the image handlers as written
      (`SelectImageAsWritten`): only typing into a field clears its error,
      so nothing ever clears the image error. */
  function HandleAsWritten(s: State, e: Event): (r: State)
    requires Handled(e)
    ensures !s.loading ==> !r.loading
    ensures forall f :: f != Image && !TypesInto(e, f) && ErrorOf(s.errors, f) != "" ==> ErrorOf(r.errors, f) != ""
    ensures ErrorOf(s.errors, Image) != "" ==> ErrorOf(r.errors, Image) != ""
  {
    match e
    case PickImage(pick) => SelectImageAsWritten(s, pick)
    case _ => Handle(s, e)
  }

  /** The form as written after a sequence of events, oldest first. */
  function RunAsWritten(s: State, events: seq<Event>): State
    requires forall k :: 0 <= k < |events| ==> Handled(events[k])
    decreases |events|
  {
    if |events| == 0 then s else RunAsWritten(HandleAsWritten(s, events[0]), events[1..])
  }

  /** As written, an inline error stays shown until the user types into
      that field. */
  lemma {:induction false} ErrorPersistsAsWritten(s: State, events: seq<Event>, f: Field)
    requires forall k :: 0 <= k < |events| ==> Handled(events[k])
    requires ErrorOf(s.errors, f) != ""
    requires forall k :: 0 <= k < |events| ==> !TypesInto(events[k], f)
    ensures ErrorOf(RunAsWritten(s, events).errors, f) != ""
    decreases |events|
  {
    if |events| > 0 {
      assert !TypesInto(events[0], f);
      assert forall k :: 0 <= k < |events| - 1 ==> events[1..][k] == events[k + 1];
      ErrorPersistsAsWritten(HandleAsWritten(s, events[0]), events[1..], f);
    }
  }

  /** As written, the image error, once shown, survives every sequence of
      events, choosing an image included: nothing types into the image
      slot. */
  lemma {:induction false} ImageErrorNeverClearedAsWritten(s: State, events: seq<Event>)
    requires forall k :: 0 <= k < |events| ==> Handled(events[k])
    requires ErrorOf(s.errors, Image) != ""
    ensures ErrorOf(RunAsWritten(s, events).errors, Image) != ""
    decreases |events|
  {
    if |events| > 0 {
      assert forall k :: 0 <= k < |events| - 1 ==> events[1..][k] == events[k + 1];
      ImageErrorNeverClearedAsWritten(HandleAsWritten(s, events[0]), events[1..]);
    }
  }

  /** As written, from a form that is not loading, no sequence of events
      leaves it loading. */
  lemma {:induction false} NeverLeftLoadingAsWritten(s: State, events: seq<Event>)
    requires forall k :: 0 <= k < |events| ==> Handled(events[k])
    requires !s.loading
    ensures !RunAsWritten(s, events).loading
    decreases |events|
  {
    if |events| > 0 {
      assert forall k :: 0 <= k < |events| - 1 ==> events[1..][k] == events[k + 1];
      NeverLeftLoadingAsWritten(HandleAsWritten(s, events[0]), events[1..]);
    }
  }
}

=== FILE: validation.dfy ===
/** The three field predicates the forms share: the email pattern
    `^\S+@\S+\.\S+$`, the minimum password length and the "no digit" rule
    for display names. */
module Validation {

  /* ---------- Characters ---------- */

  /** The characters a JavaScript regular expression matches with `\s`:
      the ECMAScript WhiteSpace and LineTerminator code points. `\S` is
      every other character. */
  predicate IsWhitespace(c: char)
  {
    var n := c as int;
    || (0x09 <= n <= 0x0D)
    || n == 0x20 || n == 0xA0 || n == 0x1680
    || (0x2000 <= n <= 0x200A)
    || n == 0x2028 || n == 0x2029 || n == 0x202F || n == 0x205F
    || n == 0x3000 || n == 0xFEFF
  }

  /** `\d`: only the ASCII decimal digits. */
  predicate IsDigit(c: char)
  {
    '0' <= c <= '9'
  }

  predicate NoWhitespace(s: string)
  {
    forall k :: 0 <= k < |s| ==> !IsWhitespace(s[k])
  }

  /* ---------- Password ---------- */

  /** The positions of `s` that hold a character outside the Basic
      Multilingual Plane. */
  ghost function Astral(s: string): set<nat>
  {
    set k: nat | k < |s| && (s[k] as int) >= 0x1_0000
  }

  /** Appending one character adds its position to `Astral` exactly when
      the character lies outside the Basic Multilingual Plane. */
  lemma AstralOfPrefix(s: string)
    requires |s| > 0
    ensures |s| - 1 !in Astral(s[..|s| - 1])
    ensures Astral(s) == Astral(s[..|s| - 1]) + (if (s[|s| - 1] as int) >= 0x1_0000 then {|s| - 1} else {})
  {
  }

  /** `s.length` in JavaScript: the number of UTF-16 code units, where a
      character outside the Basic Multilingual Plane takes two. */
  function Utf16Length(s: string): (n: nat)
    ensures n == |s| + |Astral(s)|
    ensures |s| <= n <= 2 * |s|
    ensures (forall k :: 0 <= k < |s| ==> (s[k] as int) < 0x1_0000) ==> n == |s|
  {
    if |s| == 0 then 0
    else
      var last := |s| - 1;
      AstralOfPrefix(s);
      Utf16Length(s[..last]) + (if (s[last] as int) < 0x1_0000 then 1 else 2)
  }

  /** The password rule: at least eight UTF-16 code units. */
  predicate IsValidPassword(password: string)
  {
    Utf16Length(password) >= 8
  }

  /** Which strings the password rule accepts: every string of eight or
      more characters, no string shorter than four, never the empty one,
      and, for text inside the Basic Multilingual Plane, exactly the
      strings of length eight or more. */
  lemma PasswordRule(password: string)
    ensures |password| >= 8 ==> IsValidPassword(password)
    ensures IsValidPassword(password) ==> |password| >= 4 && password != ""
    ensures (forall k :: 0 <= k < |password| ==> (password[k] as int) < 0x1_0000) ==>
              (IsValidPassword(password) <==> |password| >= 8)
  {
  }

  /* ---------- Display name ---------- */

  /** `/\d/.test(s)`: a left-to-right search for a digit. */
  function ContainsDigit(s: string): (found: bool)
    ensures found <==> exists k :: 0 <= k < |s| && IsDigit(s[k])
  {
    if |s| == 0 then false
    else if IsDigit(s[0]) then true
    else
      var rest := ContainsDigit(s[1..]);
      assert forall k :: 1 <= k < |s| ==> s[k] == s[1..][k - 1];
      rest
  }

  /** The name rule applied on blur: no decimal digit anywhere. */
  function IsValidUsername(userName: string): (ok: bool)
    ensures ok <==> forall k :: 0 <= k < |userName| ==> !IsDigit(userName[k])
  {
    !ContainsDigit(userName)
  }

  /* ---------- Email ---------- */

  /** What `^\S+@\S+\.\S+$` accepts, stated without a matcher: no
      whitespace, and an '@' at index i and a '.' at index j with at least
      one character before the '@', at least one between them and at least
      one after the '.'. */
  ghost predicate EmailShape(s: string)
  {
    NoWhitespace(s) && AtThenDot(s)
  }

  ghost predicate AtThenDot(s: string)
  {
    exists i, j :: 1 <= i && i + 2 <= j <= |s| - 2 && s[i] == '@' && s[j] == '.'
  }

  /** The states of a deterministic scan for `^\S+@\S+\.\S+$`. `Local`
      reads the part before the '@', `AtSign` has just read the first '@'
      that has something before it, `Domain` reads the part after it,
      `Dot` has just read a '.' that could close the domain, `Accept` has
      seen a complete address (any further `\S` keeps it complete), and
      `Reject` has seen whitespace. */
  datatype ScanState = Start | Local | AtSign | Domain | Dot | Accept | Reject

  function Step(st: ScanState, c: char): ScanState
  {
    if IsWhitespace(c) then Reject
    else
      match st
      case Start => Local
      case Local => if c == '@' then AtSign else Local
      case AtSign => Domain
      case Domain => if c == '.' then Dot else Domain
      case Dot => Accept
      case Accept => Accept
      case Reject => Reject
  }

  /** The state after scanning `s` from left to right. */
  function Scan(s: string): ScanState
  {
    if |s| == 0 then Start else Step(Scan(s[..|s| - 1]), s[|s| - 1])
  }

  /** The email rule: `/^\S+@\S+\.\S+$/.test(email)`. */
  function IsValidEmail(email: string): (ok: bool)
    ensures ok <==> EmailShape(email)
    ensures ok ==> email != ""
  {
    ScanAgreesWithShape(email);
    Scan(email) == Accept
  }

  /* The facts each scan state records about the prefix read so far. */

  ghost predicate AtBefore(p: string, n: int)
  {
    exists i :: 1 <= i < n && i < |p| && p[i] == '@'
  }

  ghost predicate EndsWithClosingDot(p: string)
  {
    |p| >= 4 && p[|p| - 1] == '.' && AtBefore(p, |p| - 2)
  }

  ghost predicate Holds(st: ScanState, p: string)
  {
    match st
    case Reject => !NoWhitespace(p)
    case Start => |p| == 0
    case Local => NoWhitespace(p) && |p| >= 1 && !AtBefore(p, |p|)
    case AtSign => NoWhitespace(p) && |p| >= 2 && p[|p| - 1] == '@' && !AtBefore(p, |p| - 1)
    case Domain => NoWhitespace(p) && AtBefore(p, |p| - 1) && !AtThenDot(p) && !EndsWithClosingDot(p)
    case Dot => NoWhitespace(p) && EndsWithClosingDot(p) && !AtThenDot(p)
    case Accept => NoWhitespace(p) && AtThenDot(p)
  }

  /** Reading one more character moves the scan to a state whose facts
      hold of the longer prefix. */
  lemma {:induction false} StepHolds(st: ScanState, p: string, c: char)
    requires Holds(st, p)
    ensures Holds(Step(st, c), p + [c])
  {
    var q := p + [c];
    assert forall k :: 0 <= k < |p| ==> q[k] == p[k];
    if IsWhitespace(c) {
      assert q[|p|] == c;
      return;
    }
    assert NoWhitespace(p) ==> NoWhitespace(q) by {
      if NoWhitespace(p) {
        forall k | 0 <= k < |q| ensures !IsWhitespace(q[k]) {
          if k < |p| { assert q[k] == p[k]; } else { assert q[k] == c; }
        }
      }
    }
    match st {
      case Reject =>
        var k :| 0 <= k < |p| && IsWhitespace(p[k]);
        assert q[k] == p[k];
      case Start =>
      case Local =>
        forall i | 1 <= i < |p| ensures q[i] != '@' {
          assert q[i] == p[i];
        }
        if c == '@' {
          assert q[|q| - 1] == '@';
        } else {
          assert q[|q| - 1] == c;
        }
      case AtSign =>
        assert q[|p| - 1] == '@';
        assert AtBefore(q, |q| - 1);
        forall i | 1 <= i < |p| - 1 ensures q[i] != '@' {
          assert q[i] == p[i];
        }
      case Domain =>
        var i :| 1 <= i < |p| - 1 && i < |p| && p[i] == '@';
        assert q[i] == '@';
        forall i', j | 1 <= i' && i' + 2 <= j <= |q| - 2 && q[i'] == '@'
          ensures q[j] != '.'
        {
          assert p[i'] == '@' && q[j] == p[j];
          if j == |p| - 1 {
            assert AtBefore(p, |p| - 2);
          }
        }
        if c == '.' {
          assert AtBefore(q, |q| - 2);
          assert q[|q| - 1] == '.';
        } else {
          assert AtBefore(q, |q| - 1);
          assert q[|q| - 1] == c;
        }
      case Dot =>
        var i :| 1 <= i < |p| - 2 && i < |p| && p[i] == '@';
        assert q[i] == '@' && q[|p| - 1] == '.';
        assert AtThenDot(q);
      case Accept =>
        var i, j :| 1 <= i && i + 2 <= j <= |p| - 2 && p[i] == '@' && p[j] == '.';
        assert q[i] == '@' && q[j] == '.';
    }
  }

  /** Whatever string is scanned, the facts of the state reached hold of it. */
  lemma {:induction false} ScanHolds(s: string)
    ensures Holds(Scan(s), s)
  {
    if |s| > 0 {
      var p := s[..|s| - 1];
      ScanHolds(p);
      StepHolds(Scan(p), p, s[|s| - 1]);
      assert p + [s[|s| - 1]] == s;
    }
  }

  /** The scan ends in `Accept` exactly on the strings the pattern
      describes. */
  lemma ScanAgreesWithShape(s: string)
    ensures Scan(s) == Accept <==> EmailShape(s)
  {
    ScanHolds(s);
    if EmailShape(s) {
      var i, j :| 1 <= i && i + 2 <= j <= |s| - 2 && s[i] == '@' && s[j] == '.';
      assert AtBefore(s, |s|) && AtBefore(s, |s| - 1);
    }
  }
}
